=== FILE: README.md ===
# Learning dashboard rules, modelled in Dafny

The repository is a client-side learning dashboard: a login screen, a course
catalog and a dashboard. It is written in React/Next.js. Almost all of it is
presentation. This project models the small set of pure rules underneath and
proves their properties:

- the progress badge and the progress-bar colour, both threshold
  classifiers over an integer progress;
- the static course catalog, its structural invariants and the lookup by id;
- the dashboard's derived values: the case-insensitive course search, the
  average/completed/in-progress statistics, the card button text, and the
  header chosen for the `tab` query parameter;
- the login form's email pattern and its per-field error messages, which
  decide whether sign-in goes ahead;
- which sidebar entry is highlighted for a path and a `tab` value;
- the light/dark theme: its starting value, how it is resolved from browser
  storage and the system preference, and how a toggle flips and stores it.

Files, one module each: `seqs.dfy` (`Seqs`: the first-index search), `strings.dfy` (`Strings`: the JavaScript whitespace
class, `includes`, ASCII `toLowerCase`, `trim`), `wrappers.dfy` (`Option`),
`badge.dfy`, `progress_bar.dfy`, `courses.dfy`, `dashboard.dfy`, `login.dfy`,
`sidebar.dfy` and `theme.dfy`.

Modelling choices:

- Progress is an `int`. The catalog only holds integers from 0 to 100.
- Strings are sequences of Unicode scalar values. `IsSpace` is the exact
  character set that JavaScript's `\s` matches and `trim()` removes.
- `password.length` counts UTF-16 code units. A character outside the Basic
  Multilingual Plane counts as two (`Login.Utf16Length`).
- `Math.round(sum / length)` is computed exactly on integers, rounding
  halves up (`Dashboard.RoundDiv`).
- A theme is held as the string stored under `ai-dashboard-theme`. The
  stored value is cast rather than checked, so it may be any string.
  `??` keeps a stored empty string; only a missing key falls back to the
  system preference. Browser storage is a `map<string, string>`. The
  preference is a boolean input.
- The sidebar's hrefs are written `TAB_QUERY + "my-courses"` and so on.
  These are the same strings as the literals in the source.
- `getProgressBadge` returns "Completed" for every value from 100 up
  (components/ui/Badge.tsx:32) and "Just Started" for every negative value
  (components/ui/Badge.tsx:29). The dashboard reads each catalog entry's
  static `progress` field (app/dashboard/page.tsx:40,109); it does not
  derive progress from completed lessons.

## Model

| member | source | states |
|---|---|---|
| Badge.GetProgressBadge | components/ui/Badge.tsx:24-33 | Exactly 0 is "Not Started"/muted. A non-zero value below 30, negatives included, is "Just Started"/danger. [30,70) is "In Progress"/warning, [70,100) is "Almost Done"/primary, and every value from 100 up is "Completed"/success. Each label has its one fixed variant. |
| Badge.BoundaryValues | components/ui/Badge.tsx:28-32 | Thresholds are closed below and open above: 29 is "Just Started", 30 "In Progress", 70 "Almost Done", 99 "Almost Done", 100 "Completed", -5 "Just Started". |
| Badge.LabelDeterminesVariant | components/ui/Badge.tsx:24-33 | Two progress values with the same label always get the same variant. |
| Badge.Monotone | components/ui/Badge.tsx:28-32 | For 0 <= p <= q, the badge of q is never earlier than the badge of p in the order Not Started < Just Started < In Progress < Almost Done < Completed. |
| Badge.NegativeNotMonotone | components/ui/Badge.tsx:28-29 | Monotonicity needs p >= 0: -1 ranks above 0. |
| ProgressBar.ColorOf | components/ui/ProgressBar.tsx:35-40 | High exactly from 80, medium exactly on [40,80), low exactly below 40. |
| ProgressBar.Monotone | components/ui/ProgressBar.tsx:35-40 | A larger value never selects a lower colour class. |
| Courses.CatalogWellFormed | data/courses.ts:19-149 | The catalog's ids are 1..6 in order and pairwise distinct. Every course's `totalLessons` equals its lesson count, it has at least one lesson, its lessons are numbered 1..n in order, and its progress is in [0,100]. |
| Courses.CoursesWellFormed | data/courses.ts:20-148 | Each of the six catalog entries, taken one by one, has the well-formed shape above. |
| Courses.LessonIdsDistinct | data/courses.ts:1-16 | Lessons numbered 1..n in order have pairwise distinct ids. |
| Seqs.FirstIndex | data/courses.ts:152 | Returns the index of the first element satisfying the test, or -1 exactly when none does. The catalog lookup searches for a course carrying the id with it, and the email check for the first '@'. |
| Courses.FindCourse | data/courses.ts:151-153 | `find` by id: None exactly when no course has the id (never a failure). Otherwise the result is a member with that id, and no earlier course has the id. |
| Courses.FindUnique | data/courses.ts:151-153 | With distinct ids, looking up a member's id returns that very member. |
| Courses.GetCourseById | data/courses.ts:151-153 | A found course is in the catalog and carries the requested id. The result is None exactly when no catalog course carries it. |
| Courses.CatalogLookup | data/courses.ts:151-153 | Ids 1..6 return the catalog entry at position id-1. Every other id, 999 included, returns None. |
| Strings.IsSpace | app/page.tsx:18 | Within ASCII the whitespace class is exactly tab, line feed, vertical tab, form feed, carriage return and space. Every whitespace character lies in the Basic Multilingual Plane. |
| Strings.Lower | app/dashboard/page.tsx:97 | Lower-casing keeps the length, maps each character on its own, and leaves no ASCII capital letter. |
| Strings.Trim | app/dashboard/page.tsx:97 | The trimmed string is no longer than the input and neither starts nor ends with whitespace. |
| Strings.TrimKeepsNoCapitals | app/dashboard/page.tsx:97 | Trimming a string without ASCII capitals gives a string without ASCII capitals. |
| Strings.Includes | app/dashboard/page.tsx:101-103 | The scan behind `includes` answers true exactly when `Strings.Contains` holds, the predicate that models `includes` throughout: some position of the haystack starts a copy of the needle. |
| Strings.ContainsEmpty | app/dashboard/page.tsx:98-104 | Every string contains the empty string. |
| Strings.LowerChar | app/dashboard/page.tsx:97 | Lower-casing maps A-Z 32 code points down and leaves every other character alone, so whitespace stays whitespace. |
| Strings.LowerIdempotent | app/dashboard/page.tsx:97 | Lower-casing twice equals lower-casing once. |
| Strings.TrimStart | app/dashboard/page.tsx:97 | The result is a suffix of the input. Everything dropped is whitespace, and the result does not start with whitespace. |
| Strings.TrimEnd | app/dashboard/page.tsx:97 | The result is a prefix of the input. Everything dropped is whitespace, and the result does not end with whitespace. |
| Strings.TrimEmptyIff | app/dashboard/page.tsx:97-98 | `trim()` yields the empty string exactly when the input is all whitespace. |
| Strings.TrimSpec | app/dashboard/page.tsx:97 | The trimmed string is a contiguous slice of the input with only whitespace around it, and it neither starts nor ends with whitespace. |
| Dashboard.NormalizeQuery | app/dashboard/page.tsx:97-98 | The normalised query is empty exactly when the typed query is all whitespace. It is never longer than the typed query and holds no ASCII capital letter. |
| Dashboard.MatchesQuery | app/dashboard/page.tsx:99-103 | Every course matches the empty query. |
| Dashboard.Keep | app/dashboard/page.tsx:99-104 | The kept courses are an order-preserving subsequence of the input. A course is kept exactly when it is in the input and its lower-cased title, category or instructor contains the query. Each matching course keeps its number of occurrences, and every other course occurs zero times. |
| Dashboard.Filter | app/dashboard/page.tsx:96-105 | `filtered` is always an order-preserving subsequence of the course list. A blank query returns the list itself. Otherwise each course matching the normalised query keeps its number of occurrences, and every other course occurs zero times. |
| Dashboard.FilterMembership | app/dashboard/page.tsx:97-104 | A course survives exactly when it is in the list and either the normalised query is empty or the course matches it. |
| Dashboard.BlankQueryKeepsAll | app/dashboard/page.tsx:97-98 | A query of whitespace only returns the list unchanged. |
| Dashboard.KeepEmptyQuery | app/dashboard/page.tsx:98-104 | Filtering by the empty query would keep every course, so the early return for an empty query does not change the result. |
| Dashboard.CaseInsensitive | app/dashboard/page.tsx:97-103 | Two queries that differ only in the case of ASCII letters give the same result. |
| Dashboard.LowerQueryIrrelevant | app/dashboard/page.tsx:97 | Lower-casing the query beforehand changes nothing. |
| Dashboard.SumProgress | app/dashboard/page.tsx:109 | With every progress in [0,100], the sum lies between 0 and 100 times the number of courses. |
| Dashboard.RoundDiv | app/dashboard/page.tsx:109 | The quotient r satisfies r - 1/2 <= s/n < r + 1/2, which is `Math.round` with halves rounded up. |
| Dashboard.AvgProgress | app/dashboard/page.tsx:108-110 | 0 for an empty list. Otherwise it is the rounded-half-up mean of the progress values. |
| Dashboard.RoundHalfUpUnique | app/dashboard/page.tsx:109 | At most one integer is the rounded-half-up quotient, so the average is fully determined. |
| Dashboard.SumBounds | app/dashboard/page.tsx:109 | If every progress lies in [lo,hi], the sum lies in [n*lo, n*hi]. |
| Dashboard.AvgWithin | app/dashboard/page.tsx:108-110 | The average of a non-empty list lies within any bounds that hold for every course. With every course in [0,100] it is a percentage. |
| Dashboard.CountCompleted | app/dashboard/page.tsx:111 | The completed count is at most the number of courses. It is 0 exactly when no course is at 100, and the full length exactly when every course is at 100. |
| Dashboard.CountInProgress | app/dashboard/page.tsx:112 | The in-progress count is at most the number of courses. It is 0 exactly when no course lies strictly between 0 and 100, and the full length exactly when every course does. |
| Dashboard.CountsPartition | app/dashboard/page.tsx:111-112 | Completed (== 100), in progress (strictly between 0 and 100) and the rest together count every course once, so completed + in progress <= total. |
| Dashboard.OtherMeansNotStarted | app/dashboard/page.tsx:111-112 | When every progress is in [0,100], the courses in neither count are exactly those at 0. |
| Dashboard.CtaFor | app/dashboard/page.tsx:79-83 | "Start" exactly at progress 0 and "Review" exactly at 100. Every other value gets "Continue". |
| Dashboard.CtaAgreesWithBadge | app/dashboard/page.tsx:79-83 | For progress in [0,100] the button agrees with the badge: Start with "Not Started", Review with "Completed", Continue with the three labels in between. |
| Dashboard.CtaDisagreesAbove100 | app/dashboard/page.tsx:79-83 | For every progress above 100 the badge says "Completed" while the button says "Continue". |
| Dashboard.CurrentTab | app/dashboard/page.tsx:94 | A missing or empty `tab` means "dashboard". Any other value is kept as it is, so the result is never empty. |
| Dashboard.TabInfo | app/dashboard/page.tsx:115-121 | The header table has an own entry exactly for dashboard, my-courses, achievements, path and profile. |
| Dashboard.LookupTabInfo | app/dashboard/page.tsx:115-123 | `tabInfo[tab]` finds an own entry exactly for the five known tabs, and an inherited `Object.prototype` member exactly for the inherited names; anything else is missing. |
| Dashboard.HeaderFor | app/dashboard/page.tsx:115-123 | As written: a known tab gets its own header. An inherited name such as "constructor" is truthy, so the fallback is skipped and title and sub are both undefined. Every other unknown tab gets the dashboard's header. |
| Dashboard.OwnHeaderFor | app/dashboard/page.tsx:115-123 | With own entries only, a known tab gets its own header and every unknown tab, inherited names included, gets the dashboard's header. |
| Dashboard.HeaderForAgreesOffPrototype | app/dashboard/page.tsx:115-123 | For every tab that is not an inherited name, the written lookup shows the same header as the own-entry lookup. |
| Dashboard.ComingSoonHeading | app/dashboard/page.tsx:202 | The heading always ends with " is coming soon" and starts with the title when there is one. An undefined title leaves exactly " is coming soon". |
| Dashboard.ConstructorTabLosesHeader | app/dashboard/page.tsx:94-202 | With tab "constructor" the page shows the "coming soon" panel with no title or subtitle and the heading " is coming soon". The own-entry lookup would show "My Learning Dashboard". |
| Dashboard.HeadersDistinct | app/dashboard/page.tsx:115-121 | Distinct known tabs have distinct headers, under both lookups. |
| Dashboard.ShowsCourseGrid | app/dashboard/page.tsx:145 | The course grid is only shown for a known tab, and that tab has a title. |
| Dashboard.AbsentTabIsDashboard | app/dashboard/page.tsx:94-145 | With no tab, or an empty one, the dashboard header and the course grid are shown. |
| Login.MatchesEmailPattern | app/page.tsx:18 | A string the pattern matches has at least five characters, contains an '@', and does not start with one. |
| Login.ValidateEmail | app/page.tsx:17-19 | An accepted address has at least five characters, does not start with '@', and contains no whitespace. |
| Login.ValidateEmailMatchesPattern | app/page.tsx:17-19 | The one-pass check accepts exactly the language of `^[^\s@]+@[^\s@]+\.[^\s@]+$`: a non-empty local part, '@', then a domain with a dot that has text on both sides, and no whitespace and no other '@' anywhere. |
| Login.ValidEmailShape | app/page.tsx:18 | An accepted address has no whitespace, exactly one '@', and at least five characters. |
| Login.EmailExamples | app/page.tsx:18 | "a@b.c" is accepted. "a@b", "@b.c", "a@b.", "a@.c", "a b@c.d" and "a@b@c.d" are rejected. |
| Login.Utf16Length | app/page.tsx:33 | The JavaScript length is between the number of characters and twice that. |
| Login.Utf16LengthBmp | app/page.tsx:33 | For text inside the Basic Multilingual Plane, the JavaScript length is the number of characters. |
| Login.EmailErrorOf | app/page.tsx:30-31 | "Email is required" appears exactly for an empty email. |
| Login.EmailErrorIff | app/page.tsx:30-31 | There is no email error exactly when the address matches the pattern. "Enter a valid email address" appears exactly for a non-empty address that does not match. |
| Login.PasswordErrorOf | app/page.tsx:32-33 | "Password is required" appears exactly for an empty password and "Minimum 6 characters" exactly for a non-empty one under 6 code units. There is no error exactly from 6 up. |
| Login.Validate | app/page.tsx:28-35 | "Email is required" exactly for an empty email, "Enter a valid email address" exactly for a non-empty one the pattern rejects, and no email error exactly when the pattern matches. "Password is required" exactly for an empty password, "Minimum 6 characters" exactly for a non-empty one under 6 code units, and no password error exactly from 6 up. There is no error at all exactly when the email matches and the password has at least 6 code units. |
| Login.FieldsIndependent | app/page.tsx:28-35 | Changing one field never changes the other field's error. |
| Login.CanSubmit | app/page.tsx:54-56 | Sign-in goes ahead exactly when the email matches the pattern and the password has at least 6 code units. |
| Login.RequiredTakesPrecedence | app/page.tsx:30-33 | An empty form reports both "required" messages and neither format message. |
| Sidebar.SectionOf | components/layout/Sidebar.tsx:71-90 | The first four entries are under "Main". Only the Profile entry is under "Account". |
| Sidebar.TabValueOf | components/layout/Sidebar.tsx:27-57 | Each tab entry links to `/dashboard?tab=` plus one of the four linked tab values, and that value contains no '='. |
| Sidebar.LinkedTabsPrefixFree | components/layout/Sidebar.tsx:27-57 | No linked tab value starts another one, and none starts with "null". |
| Sidebar.TabText | components/layout/Sidebar.tsx:74-91 | `${currentTab}` is the tab value itself when present. It is empty exactly for an empty tab, so a missing tab never reads as empty. |
| Sidebar.NoTab | components/layout/Sidebar.tsx:73 | With `!currentTab` true, the tab text the other links are tested against is "" or "null". |
| Sidebar.IsActive | components/layout/Sidebar.tsx:72-91 | An entry is only ever highlighted on "/dashboard". |
| Sidebar.TabLinkContains | components/layout/Sidebar.tsx:74 | A tab link contains `tab=w` exactly when w is a prefix of the link's own tab value. |
| Sidebar.DashboardLinkHasNoTab | components/layout/Sidebar.tsx:72-74 | The bare dashboard link contains no `tab=` text. |
| Sidebar.NothingActiveElsewhere | components/layout/Sidebar.tsx:72-91 | Away from "/dashboard" no entry is highlighted. |
| Sidebar.DashboardEntryActiveIff | components/layout/Sidebar.tsx:72-73 | The Dashboard entry is highlighted exactly on "/dashboard" with the tab missing or empty. |
| Sidebar.TabEntryActiveIff | components/layout/Sidebar.tsx:72-91 | A tab entry is highlighted exactly on "/dashboard" when its own tab value starts with the tab text. A missing tab reads as "null". |
| Sidebar.NoTabOnlyDashboard | components/layout/Sidebar.tsx:64-91 | With no `tab` parameter only the Dashboard entry is highlighted. |
| Sidebar.LinkedTabActivatesOnlyItsEntry | components/layout/Sidebar.tsx:27-91 | With tab equal to my-courses, achievements, path or profile, exactly the entry linking to that tab is highlighted. |
| Sidebar.EmptyTabActivatesAll | components/layout/Sidebar.tsx:72-91 | An empty `tab=` highlights all five entries at once. |
| Sidebar.PrefixTabActivatesSeveral | components/layout/Sidebar.tsx:72-91 | The tab text "p" highlights both Learning Path and Profile. |
| Theme.Initial | context/ThemeContext.tsx:24-25 | Before the mount effect the theme is "light" and the provider renders nothing. |
| Theme.Lookup | context/ThemeContext.tsx:28 | `localStorage.getItem` finds a value exactly when the key is stored, and it is the stored value. |
| Theme.Resolve | context/ThemeContext.tsx:28-30 | A stored value wins over the preference, even an empty one. With nothing stored, the result is "dark" exactly when the system prefers dark, and "light" otherwise. |
| Theme.Mount | context/ThemeContext.tsx:27-34 | After mounting the provider renders. Storage is only read. The theme is the stored value if there is one. Otherwise it is "dark" exactly when the system prefers dark, and "light" in every other case. |
| Theme.Flip | context/ThemeContext.tsx:38 | The next theme is always light or dark, and it is "dark" exactly when the previous one was "light". |
| Theme.Toggle | context/ThemeContext.tsx:36-43 | After a toggle the theme is light or dark and differs from a previous real theme. The value stored under "ai-dashboard-theme" equals the new theme, and every other key is untouched. |
| Theme.ToggleTwice | context/ThemeContext.tsx:38 | On light or dark, toggling twice restores the theme. |
| Theme.ToggleOther | context/ThemeContext.tsx:38 | Any theme other than "light" toggles to "light". |
| Theme.ToggleSurvivesReload | context/ThemeContext.tsx:28-39 | After a toggle, the next page load resolves to the theme just chosen, whatever the system preference is then. |
| Theme.Run | context/ThemeContext.tsx:27-43 | After mounting and one or more toggles, the stored value always equals the displayed theme. |
| Theme.RunParity | context/ThemeContext.tsx:36-43 | Starting from a real theme, the theme after n toggles depends only on whether n is even. |

## Left out

- Courses.GetCourseById takes an `int`. The source takes any `number`: `Number(id)` at app/course/[id]/page.tsx:26 can be NaN or a fraction, and such ids match no course there. Non-integer ids are not modelled; they would all give None.
- Strings.LowerChar: lower-cases ASCII letters only. Full Unicode `toLowerCase` (for example 'É' to 'é') is not modelled, so search over non-ASCII letters is modelled as case-sensitive.
- Dashboard.RoundDiv: computes `Math.round(sum / length)` exactly on integers. The source divides in double precision. The two agree for the small sums a catalog produces, but not for sums near 2^53.
- Login.CanSubmit covers only the validation gate of `handleSubmit`. The 1.2-second delay, the `isLoggedIn`/`userEmail` writes and the navigation (app/page.tsx:58-66) are side effects.
- The `touched` bookkeeping of `handleBlur`/`handleChange` (app/page.tsx:37-49) is left out. `Login.Validate` is the check on a given form. In the source, `handleChange` calls `validate()` right after `setForm`, and `validate` reads the `form` captured at the last render. So each keystroke in a touched field leaves the message one value behind: after keystroke k+1 it belongs to the value after keystroke k. Only `handleBlur` (app/page.tsx:37-41) and `handleSubmit` (app/page.tsx:51-56) validate the value on screen, so a blur or the submit brings the message up to date. This stale-message behaviour is not modelled.
- Theme.Mount and Theme.Toggle act on a storage map that never fails. In the source, `localStorage.getItem` (context/ThemeContext.tsx:28) and `localStorage.setItem` (context/ThemeContext.tsx:39) are not guarded, unlike the try/catch in hooks/useLocalStorage.ts:7-14,19-28. With storage blocked or full, the mount effect throws before `setMounted(true)` (context/ThemeContext.tsx:33), so the provider never renders its children, and a toggle throws inside the `setTheme` updater. These exceptions are not modelled.
- The theme's `data-theme` attribute writes and the `matchMedia` query (context/ThemeContext.tsx:29,32,40) are DOM effects. The preference is an input instead.
- The React state-update scheduling around `setTheme` is not modelled. A toggle is modelled as one atomic step.
- The per-course lesson checklist and its live percentage (app/course/[id]/page.tsx) are not part of this model. The same goes for the `useLocalStorage` wrapper over `localStorage`/JSON (hooks/useLocalStorage.ts).
- The artificial loading delay of hooks/useCourses.ts is timing only, with no logic to model.
- The React Native screen (rn-app/App.tsx) works on floating-point fractions and animation. It is not part of this model.
- AuthGuard redirects, Navbar logout, and the JSX/CSS presentation (class names, icons, animation delays, the ProgressBar width timer) are left out.
- "At most one sidebar entry is highlighted" is not proved for every tab value, because it is false. Sidebar.EmptyTabActivatesAll and Sidebar.PrefixTabActivatesSeveral show counterexamples. Uniqueness is proved for the four linked tab values and for a missing tab.

## Findings

| source | as written | input that shows it | evidently intended | confidence | as-written member | corrected member |
|---|---|---|---|---|---|---|
| app/dashboard/page.tsx:115-123 | `tabInfo[currentTab] \|\| tabInfo.dashboard` indexes a plain object literal, so inherited `Object.prototype` names such as "constructor", "toString" or "__proto__" find a truthy value with no `title` or `sub`, and the fallback is skipped | `/dashboard?tab=constructor` renders the "coming soon" panel with an empty header and the heading " is coming soon" (Dashboard.ConstructorTabLosesHeader) | every tab outside the header table falls back to the dashboard header | not executed; follows from JavaScript property lookup on object literals | Dashboard.HeaderFor | Dashboard.OwnHeaderFor |

=== FILE: badge.dfy ===
/** The progress badge of components/ui/Badge.tsx: a threshold classifier
    from an integer progress value to a label and a colour variant. */
module Badge {

  datatype Variant = Primary | Success | Warning | Danger | Muted

  /** The five labels, in the order a learner moves through them. */
  datatype Label = NotStarted | JustStarted | InProgress | AlmostDone | Completed
  {
    /** The text shown on the badge. */
    function Text(): string
    {
      match this
      case NotStarted => "Not Started"
      case JustStarted => "Just Started"
      case InProgress => "In Progress"
      case AlmostDone => "Almost Done"
      case Completed => "Completed"
    }

    /** Position of the label in the learner's journey. */
    function Rank(): nat
    {
      match this
      case NotStarted => 0
      case JustStarted => 1
      case InProgress => 2
      case AlmostDone => 3
      case Completed => 4
    }

    /** The colour each label is always drawn with. */
    function DefaultVariant(): Variant
    {
      match this
      case NotStarted => Muted
      case JustStarted => Danger
      case InProgress => Warning
      case AlmostDone => Primary
      case Completed => Success
    }
  }

  datatype ProgressBadge = ProgressBadge(name: Label, variant: Variant)

  /** `getProgressBadge`: exactly 0 is "Not Started"; every other value below
      30, negatives included, is "Just Started"; then [30,70), [70,100) and
      everything from 100 up. Each label comes with its fixed variant. */
  function GetProgressBadge(progress: int): (b: ProgressBadge)
    ensures b.variant == b.name.DefaultVariant()
    ensures b.name == NotStarted <==> progress == 0
    ensures b.name == JustStarted <==> progress != 0 && progress < 30
    ensures b.name == InProgress <==> 30 <= progress < 70
    ensures b.name == AlmostDone <==> 70 <= progress < 100
    ensures b.name == Completed <==> progress >= 100
  {
    if progress == 0 then ProgressBadge(NotStarted, Muted)
    else if progress < 30 then ProgressBadge(JustStarted, Danger)
    else if progress < 70 then ProgressBadge(InProgress, Warning)
    else if progress < 100 then ProgressBadge(AlmostDone, Primary)
    else ProgressBadge(Completed, Success)
  }

  /** The thresholds are closed below and open above: 30, 70 and 100 each
      start the next bucket. */
  lemma BoundaryValues()
    ensures GetProgressBadge(0).name.Text() == "Not Started"
    ensures GetProgressBadge(29).name.Text() == "Just Started"
    ensures GetProgressBadge(30).name.Text() == "In Progress"
    ensures GetProgressBadge(69).name.Text() == "In Progress"
    ensures GetProgressBadge(70).name.Text() == "Almost Done"
    ensures GetProgressBadge(99).name.Text() == "Almost Done"
    ensures GetProgressBadge(100).name.Text() == "Completed"
    ensures GetProgressBadge(-5).name.Text() == "Just Started"
  {
  }

  /** Two progress values with the same label always get the same variant,
      so the label alone determines the colour. */
  lemma LabelDeterminesVariant(p: int, q: int)
    ensures GetProgressBadge(p).name == GetProgressBadge(q).name
            ==> GetProgressBadge(p).variant == GetProgressBadge(q).variant
  {
  }

  /** For non-negative progress the badge never moves backwards. */
  lemma Monotone(p: int, q: int)
    requires 0 <= p <= q
    ensures GetProgressBadge(p).name.Rank() <= GetProgressBadge(q).name.Rank()
  {
  }

  /** Negative progress breaks monotonicity: -1 ranks above 0. */
  lemma NegativeNotMonotone()
    ensures GetProgressBadge(-1).name.Rank() > GetProgressBadge(0).name.Rank()
  {
  }
}

=== FILE: courses.dfy ===
/** The static course catalog of data/courses.ts and its lookup by id. */
module Courses {
  import opened Wrappers
  import opened Seqs

  datatype LessonType = Video | Article | Quiz

  datatype Lesson = Lesson(id: int, title: string, duration: string, kind: LessonType)

  datatype Course = Course(
    id: int,
    title: string,
    progress: int,
    description: string,
    instructor: string,
    category: string,
    totalLessons: int,
    lessons: seq<Lesson>)

  /** The shape every catalog entry has: the declared lesson count is the real
      one, there is at least one lesson, lessons are numbered 1..n in order,
      and the progress is a percentage. */
  predicate WellFormedCourse(c: Course)
  {
    && c.totalLessons == |c.lessons|
    && |c.lessons| >= 1
    && (forall k :: 0 <= k < |c.lessons| ==> c.lessons[k].id == k + 1)
    && 0 <= c.progress <= 100
  }

  /** No two courses share an id. */
  predicate DistinctIds(cs: seq<Course>)
  {
    forall i, j :: 0 <= i < j < |cs| ==> cs[i].id != cs[j].id
  }

  predicate WellFormedCatalog(cs: seq<Course>)
  {
    DistinctIds(cs) && forall i :: 0 <= i < |cs| ==> WellFormedCourse(cs[i])
  }

  /** Lesson ids numbered 1..n in order are pairwise distinct. */
  lemma LessonIdsDistinct(c: Course)
    requires WellFormedCourse(c)
    ensures forall i, j :: 0 <= i < j < |c.lessons| ==> c.lessons[i].id != c.lessons[j].id
  {
  }

  // ------------------------------------------------------------------ lookup

  /** `COURSES.find(c => c.id === id)` over a given list: the first course
      with that id, or None (never a failure) when no course has it. */
  function FindCourse(cs: seq<Course>, id: int): (r: Option<Course>)
    ensures r.None? <==> forall c :: c in cs ==> c.id != id
    ensures r.Some? ==> r.value in cs && r.value.id == id
    ensures r.Some? ==> exists k :: 0 <= k < |cs| && cs[k] == r.value
                                    && forall j :: 0 <= j < k ==> cs[j].id != id
  {
    var k := FirstIndex(cs, (c: Course) => c.id == id);
    if k == -1 then None else Some(cs[k])
  }

  /** With distinct ids the course found is the only one carrying the id. */
  lemma FindUnique(cs: seq<Course>, c: Course)
    requires DistinctIds(cs)
    requires c in cs
    ensures FindCourse(cs, c.id) == Some(c)
  {
  }

  // ----------------------------------------------------------------- catalog

  const AI_FUNDAMENTALS: Course :=
    Course(1, "AI Fundamentals", 60,
      "Master the core principles of Artificial Intelligence, from Turing machines to modern neural architectures.",
      "Dr. Sarah Chen", "Artificial Intelligence", 8,
      [ Lesson(1, "What is Artificial Intelligence?", "12 min", Video),
        Lesson(2, "History of AI", "8 min", Article),
        Lesson(3, "Types of AI Systems", "15 min", Video),
        Lesson(4, "Knowledge Representation", "10 min", Video),
        Lesson(5, "Search Algorithms", "18 min", Video),
        Lesson(6, "Planning & Reasoning", "14 min", Article),
        Lesson(7, "Quiz: AI Basics", "5 min", Quiz),
        Lesson(8, "Future of AI", "10 min", Video) ])

  const ML_BASICS: Course :=
    Course(2, "Machine Learning Basics", 20,
      "Build a solid foundation in ML — supervised, unsupervised, and reinforcement learning with hands-on examples.",
      "Prof. James Liu", "Machine Learning", 10,
      [ Lesson(1, "Introduction to Machine Learning", "14 min", Video),
        Lesson(2, "Supervised vs Unsupervised Learning", "10 min", Article),
        Lesson(3, "Linear Regression Deep Dive", "20 min", Video),
        Lesson(4, "Classification Algorithms", "18 min", Video),
        Lesson(5, "Decision Trees & Random Forests", "22 min", Video),
        Lesson(6, "Model Evaluation & Metrics", "12 min", Article),
        Lesson(7, "Overfitting & Regularization", "15 min", Video),
        Lesson(8, "Neural Network Basics", "25 min", Video),
        Lesson(9, "Quiz: ML Fundamentals", "8 min", Quiz),
        Lesson(10, "Building Your First ML Pipeline", "30 min", Video) ])

  const REACT_FOR_BEGINNERS: Course :=
    Course(3, "React for Beginners", 90,
      "Go from zero to production with React 18 — hooks, context, routing, and modern patterns used by top companies.",
      "Emily Rodriguez", "Web Development", 9,
      [ Lesson(1, "Why React? The Component Model", "10 min", Video),
        Lesson(2, "JSX & Virtual DOM", "8 min", Article),
        Lesson(3, "useState & useEffect Hooks", "20 min", Video),
        Lesson(4, "Props & Component Composition", "15 min", Video),
        Lesson(5, "Context API & Global State", "18 min", Video),
        Lesson(6, "React Router v6", "16 min", Video),
        Lesson(7, "Performance Optimization", "14 min", Article),
        Lesson(8, "Quiz: React Essentials", "6 min", Quiz),
        Lesson(9, "Build a Real Project", "45 min", Video) ])

  const DEEP_LEARNING_PYTORCH: Course :=
    Course(4, "Deep Learning with PyTorch", 45,
      "Implement CNNs, RNNs, and Transformers from scratch using PyTorch with GPU acceleration.",
      "Dr. Michael Patel", "Deep Learning", 12,
      [ Lesson(1, "PyTorch Tensors & Autograd", "18 min", Video),
        Lesson(2, "Building Neural Networks", "22 min", Video),
        Lesson(3, "Convolutional Neural Networks", "30 min", Video),
        Lesson(4, "Image Classification Project", "35 min", Video),
        Lesson(5, "Recurrent Neural Networks", "25 min", Video),
        Lesson(6, "LSTM & GRU Architectures", "20 min", Article),
        Lesson(7, "Attention Mechanism", "28 min", Video),
        Lesson(8, "Transformer Architecture", "32 min", Video),
        Lesson(9, "Transfer Learning", "18 min", Video),
        Lesson(10, "Model Deployment", "22 min", Article),
        Lesson(11, "Quiz: Deep Learning Concepts", "10 min", Quiz),
        Lesson(12, "Capstone: Build a Chatbot", "60 min", Video) ])

  const NLP: Course :=
    Course(5, "Natural Language Processing", 10,
      "From tokenization to large language models — learn how machines understand and generate human language.",
      "Dr. Aisha Nakamura", "NLP", 8,
      [ Lesson(1, "Text Preprocessing & Tokenization", "15 min", Video),
        Lesson(2, "Word Embeddings (Word2Vec, GloVe)", "20 min", Video),
        Lesson(3, "Sentiment Analysis", "18 min", Video),
        Lesson(4, "Named Entity Recognition", "16 min", Article),
        Lesson(5, "Text Classification", "22 min", Video),
        Lesson(6, "Introduction to LLMs", "25 min", Video),
        Lesson(7, "Prompt Engineering", "14 min", Article),
        Lesson(8, "Quiz: NLP Basics", "7 min", Quiz) ])

  const DATA_SCIENCE: Course :=
    Course(6, "Data Science & Analytics", 75,
      "Master data wrangling, EDA, and statistical analysis with Python, Pandas, and visualization libraries.",
      "Carlos Mendes", "Data Science", 10,
      [ Lesson(1, "Python for Data Science", "20 min", Video),
        Lesson(2, "NumPy Essentials", "16 min", Video),
        Lesson(3, "Pandas DataFrames", "24 min", Video),
        Lesson(4, "Exploratory Data Analysis", "28 min", Video),
        Lesson(5, "Data Visualization with Matplotlib", "18 min", Video),
        Lesson(6, "Statistical Testing", "22 min", Article),
        Lesson(7, "Feature Engineering", "20 min", Video),
        Lesson(8, "Building Dashboards", "25 min", Video),
        Lesson(9, "Quiz: Data Science Workflow", "8 min", Quiz),
        Lesson(10, "Capstone: End-to-End Analysis", "50 min", Video) ])

  /** `COURSES`, in catalog order. */
  const COURSES: seq<Course> := [
    AI_FUNDAMENTALS,
    ML_BASICS,
    REACT_FOR_BEGINNERS,
    DEEP_LEARNING_PYTORCH,
    NLP,
    DATA_SCIENCE
  ]

  /** `getCourseById`. */
  function GetCourseById(id: int): (r: Option<Course>)
    ensures r.Some? ==> r.value.id == id && r.value in COURSES
    ensures r.None? <==> forall c :: c in COURSES ==> c.id != id
  {
    FindCourse(COURSES, id)
  }

  /** The catalog's ids are 1..6, its entries are well formed. */
  lemma CatalogWellFormed()
    ensures WellFormedCatalog(COURSES)
    ensures forall i :: 0 <= i < |COURSES| ==> COURSES[i].id == i + 1
  {
    CoursesWellFormed();
  }

  lemma CoursesWellFormed()
    ensures WellFormedCourse(AI_FUNDAMENTALS)
    ensures WellFormedCourse(ML_BASICS)
    ensures WellFormedCourse(REACT_FOR_BEGINNERS)
    ensures WellFormedCourse(DEEP_LEARNING_PYTORCH)
    ensures WellFormedCourse(NLP)
    ensures WellFormedCourse(DATA_SCIENCE)
  {
  }

  /** Ids 1..6 each find their course; anything else, such as 999, finds
      nothing. */
  lemma CatalogLookup(id: int)
    ensures 1 <= id <= 6 ==> GetCourseById(id) == Some(COURSES[id - 1])
    ensures !(1 <= id <= 6) ==> GetCourseById(id) == None
  {
  }
}

=== FILE: dashboard.dfy ===
/** The derivations of app/dashboard/page.tsx: the course search, the
    statistics strip, the call-to-action label of a course card and the
    header chosen for the `tab` query parameter. */
module Dashboard {
  import opened Wrappers
  import opened Strings
  import opened Courses
  import Badge

  // ------------------------------------------------------------------ search

  /** The query as compared: lower-cased, then trimmed. */
  function NormalizeQuery(query: string): (q: string)
    ensures q == "" <==> AllSpace(query)
    ensures |q| <= |query|
    ensures NoCapitals(q)
  {
    LowerKeepsSpace(query);
    TrimEmptyIff(Lower(query));
    TrimKeepsNoCapitals(Lower(query));
    Trim(Lower(query))
  }

  /** A course is kept when its lower-cased title, category or instructor
      contains the normalised query. */
  predicate MatchesQuery(c: Course, q: string)
    ensures q == "" ==> MatchesQuery(c, q)
  {
    ContainsEmpty(Lower(c.title));
    || Contains(Lower(c.title), q)
    || Contains(Lower(c.category), q)
    || Contains(Lower(c.instructor), q)
  }

  /** `a` is `b` with some elements dropped, the rest in their original order. */
  predicate IsSubsequence<T(==)>(a: seq<T>, b: seq<T>)
    decreases |b|
  {
    || |a| == 0
    || (|b| > 0 && ((a[0] == b[0] && IsSubsequence(a[1..], b[1..])) || IsSubsequence(a, b[1..])))
  }

  /** `courses.filter(MatchesQuery)`: every matching course is kept, as
      many times as it occurs, and nothing else. */
  function Keep(cs: seq<Course>, q: string): (r: seq<Course>)
    ensures IsSubsequence(r, cs)
    ensures forall c :: c in r <==> c in cs && MatchesQuery(c, q)
    ensures forall x :: multiset(r)[x] == if MatchesQuery(x, q) then multiset(cs)[x] else 0
    ensures |r| <= |cs|
    decreases |cs|
  {
    if |cs| == 0 then []
    else
      assert cs == [cs[0]] + cs[1..];
      if MatchesQuery(cs[0], q) then [cs[0]] + Keep(cs[1..], q)
      else Keep(cs[1..], q)
  }

  /** `filtered`: an empty normalised query returns the list itself,
      otherwise the matching courses in list order. */
  function Filter(cs: seq<Course>, query: string): (r: seq<Course>)
    ensures IsSubsequence(r, cs)
    ensures forall c :: c in r ==> c in cs
    ensures AllSpace(query) ==> r == cs
    ensures !AllSpace(query) ==>
              forall x :: multiset(r)[x] == (if MatchesQuery(x, NormalizeQuery(query)) then multiset(cs)[x] else 0)
  {
    var q := NormalizeQuery(query);
    if q == "" then SubsequenceReflexive(cs); cs else Keep(cs, q)
  }

  lemma {:induction false} SubsequenceReflexive<T>(a: seq<T>)
    ensures IsSubsequence(a, a)
    decreases |a|
  {
    if |a| > 0 {
      SubsequenceReflexive(a[1..]);
    }
  }

  /** A query of whitespace only (after lower-casing and trimming) leaves the
      list unchanged. */
  lemma BlankQueryKeepsAll(cs: seq<Course>, query: string)
    requires AllSpace(query)
    ensures Filter(cs, query) == cs
  {
  }

  /** A course survives the filter exactly when the query is blank or the
      course matches it. */
  lemma FilterMembership(cs: seq<Course>, query: string, c: Course)
    ensures c in Filter(cs, query) <==>
              c in cs && (NormalizeQuery(query) == "" || MatchesQuery(c, NormalizeQuery(query)))
  {
  }

  /** The shortcut for a blank query agrees with filtering by it: every
      string contains the empty string. */
  lemma {:induction false} KeepEmptyQuery(cs: seq<Course>)
    ensures Keep(cs, "") == cs
    decreases |cs|
  {
    if |cs| > 0 {
      ContainsEmpty(Lower(cs[0].title));
      KeepEmptyQuery(cs[1..]);
    }
  }

  /** Queries that differ only in the case of ASCII letters select the same
      courses. */
  lemma CaseInsensitive(cs: seq<Course>, q1: string, q2: string)
    requires |q1| == |q2|
    requires forall i :: 0 <= i < |q1| ==> LowerChar(q1[i]) == LowerChar(q2[i])
    ensures Filter(cs, q1) == Filter(cs, q2)
  {
    assert Lower(q1) == Lower(q2);
  }

  /** Lower-casing the query first changes nothing. */
  lemma LowerQueryIrrelevant(cs: seq<Course>, query: string)
    ensures Filter(cs, Lower(query)) == Filter(cs, query)
  {
    LowerIdempotent(query);
  }

  // ------------------------------------------------------------------- stats

  /** The `reduce` sum of the progress values. */
  function SumProgress(cs: seq<Course>): (sum: int)
    ensures ProgressWithin(cs, 0, 100) ==> 0 <= sum <= 100 * |cs|
    decreases |cs|
  {
    if |cs| == 0 then 0
    else
      assert ProgressWithin(cs, 0, 100) ==> ProgressWithin(cs[1..], 0, 100);
      cs[0].progress + SumProgress(cs[1..])
  }

  /** `r` is `Math.round(s / n)`: the nearest integer, halves rounded up,
      i.e. r - 1/2 <= s/n < r + 1/2. */
  predicate IsRoundHalfUp(s: int, n: int, r: int)
    requires n > 0
  {
    2 * (n * r) - n <= 2 * s < 2 * (n * r) + n
  }

  /** `Math.round(s / n)` for a positive count. Dafny's `/` floors when the
      divisor is positive, as `Math.floor(x + 0.5)` does. */
  function RoundDiv(s: int, n: int): (r: int)
    requires n > 0
    ensures IsRoundHalfUp(s, n, r)
  {
    var r := (2 * s + n) / (2 * n);
    assert (2 * n) * r == 2 * (n * r);
    r
  }

  /** `avgProgress`: 0 for an empty list, else the rounded mean. */
  function AvgProgress(cs: seq<Course>): (avg: int)
    ensures |cs| == 0 ==> avg == 0
    ensures |cs| > 0 ==> IsRoundHalfUp(SumProgress(cs), |cs|, avg)
  {
    if |cs| == 0 then 0 else RoundDiv(SumProgress(cs), |cs|)
  }

  /** Scaling a strict integer gap by a positive factor. */
  lemma ScaleGap(m: int, x: int, y: int)
    requires m > 0 && x < y
    ensures m * x + m <= m * y
  {
    AtLeastOnce(m, y - x);
    assert m * y == m * x + m * (y - x);
  }

  lemma {:induction false} AtLeastOnce(m: int, d: int)
    requires m > 0 && d >= 1
    ensures m * d >= m
    decreases d
  {
    if d > 1 {
      AtLeastOnce(m, d - 1);
      assert m * d == m * (d - 1) + m;
    }
  }

  /** The rounded-half-up quotient is unique. */
  lemma RoundHalfUpUnique(s: int, n: int, r1: int, r2: int)
    requires n > 0
    requires IsRoundHalfUp(s, n, r1) && IsRoundHalfUp(s, n, r2)
    ensures r1 == r2
  {
    if r1 < r2 {
      ScaleGap(n, r1, r2);
    } else if r2 < r1 {
      ScaleGap(n, r2, r1);
    }
  }

  predicate ProgressWithin(cs: seq<Course>, lo: int, hi: int)
  {
    forall i :: 0 <= i < |cs| ==> lo <= cs[i].progress <= hi
  }

  lemma {:induction false} SumBounds(cs: seq<Course>, lo: int, hi: int)
    requires ProgressWithin(cs, lo, hi)
    ensures |cs| * lo <= SumProgress(cs) <= |cs| * hi
    decreases |cs|
  {
    if |cs| > 0 {
      var t := cs[1..];
      assert ProgressWithin(t, lo, hi);
      SumBounds(t, lo, hi);
      assert SumProgress(cs) == cs[0].progress + SumProgress(t);
      assert lo <= cs[0].progress <= hi;
      MulSucc(|t|, lo);
      MulSucc(|t|, hi);
    }
  }

  lemma MulSucc(k: int, x: int)
    ensures (k + 1) * x == k * x + x
  {
  }

  /** The average lies between the smallest and largest progress allowed;
      with every course in [0,100] it is a percentage. */
  lemma AvgWithin(cs: seq<Course>, lo: int, hi: int)
    requires |cs| > 0
    requires ProgressWithin(cs, lo, hi)
    ensures lo <= AvgProgress(cs) <= hi
  {
    SumBounds(cs, lo, hi);
    var n, r := |cs|, AvgProgress(cs);
    if r < lo {
      ScaleGap(n, r, lo);
    }
    if r > hi {
      ScaleGap(n, hi, r);
    }
  }

  /** `completed`: courses at exactly 100. */
  function CountCompleted(cs: seq<Course>): (n: nat)
    ensures n <= |cs|
    ensures n == 0 <==> forall i :: 0 <= i < |cs| ==> cs[i].progress != 100
    ensures n == |cs| <==> forall i :: 0 <= i < |cs| ==> cs[i].progress == 100
    decreases |cs|
  {
    if |cs| == 0 then 0
    else (if cs[0].progress == 100 then 1 else 0) + CountCompleted(cs[1..])
  }

  /** `inProgress`: courses strictly between 0 and 100. */
  function CountInProgress(cs: seq<Course>): (n: nat)
    ensures n <= |cs|
    ensures n == 0 <==> forall i :: 0 <= i < |cs| ==> !(0 < cs[i].progress < 100)
    ensures n == |cs| <==> forall i :: 0 <= i < |cs| ==> 0 < cs[i].progress < 100
    decreases |cs|
  {
    if |cs| == 0 then 0
    else (if 0 < cs[0].progress < 100 then 1 else 0) + CountInProgress(cs[1..])
  }

  /** Courses counted by neither statistic: at most 0, or above 100. */
  function CountOther(cs: seq<Course>): nat
    decreases |cs|
  {
    if |cs| == 0 then 0
    else (if cs[0].progress <= 0 || cs[0].progress > 100 then 1 else 0) + CountOther(cs[1..])
  }

  /** Every course falls in exactly one of the three counts, so completed
      plus in-progress never exceeds the total. */
  lemma {:induction false} CountsPartition(cs: seq<Course>)
    ensures CountCompleted(cs) + CountInProgress(cs) + CountOther(cs) == |cs|
    ensures CountCompleted(cs) + CountInProgress(cs) <= |cs|
    decreases |cs|
  {
    if |cs| > 0 {
      CountsPartition(cs[1..]);
    }
  }

  /** When every progress is a percentage, the courses outside both counts
      are exactly the unstarted ones. */
  lemma {:induction false} OtherMeansNotStarted(cs: seq<Course>)
    requires ProgressWithin(cs, 0, 100)
    ensures CountOther(cs) == |NotStarted(cs)|
    decreases |cs|
  {
    if |cs| > 0 {
      assert ProgressWithin(cs[1..], 0, 100);
      OtherMeansNotStarted(cs[1..]);
    }
  }

  /** The courses at progress 0, in order. */
  function NotStarted(cs: seq<Course>): (r: seq<Course>)
    ensures forall c :: c in r <==> c in cs && c.progress == 0
    decreases |cs|
  {
    if |cs| == 0 then []
    else if cs[0].progress == 0 then [cs[0]] + NotStarted(cs[1..])
    else NotStarted(cs[1..])
  }

  // -------------------------------------------------------- call to action

  datatype Cta = Start | Review | Continue
  {
    function Text(): string
    {
      match this
      case Start => "Start"
      case Review => "Review"
      case Continue => "Continue"
    }
  }

  /** The card's button text. */
  function CtaFor(progress: int): (cta: Cta)
    ensures cta == Start <==> progress == 0
    ensures cta == Review <==> progress == 100
  {
    if progress == 0 then Start
    else if progress == 100 then Review
    else Continue
  }

  /** For a percentage the button agrees with the badge: "Start" on "Not
      Started", "Review" on "Completed", "Continue" on the three in between. */
  lemma CtaAgreesWithBadge(progress: int)
    requires 0 <= progress <= 100
    ensures CtaFor(progress) == Start <==> Badge.GetProgressBadge(progress).name == Badge.NotStarted
    ensures CtaFor(progress) == Review <==> Badge.GetProgressBadge(progress).name == Badge.Completed
    ensures CtaFor(progress) == Continue <==>
              Badge.GetProgressBadge(progress).name in {Badge.JustStarted, Badge.InProgress, Badge.AlmostDone}
  {
  }

  /** Above 100 the two disagree: the badge says "Completed" but the button
      says "Continue". */
  lemma CtaDisagreesAbove100(p: int)
    requires p > 100
    ensures Badge.GetProgressBadge(p).name == Badge.Completed && CtaFor(p) == Continue
  {
  }

  // -------------------------------------------------------------------- tabs

  /** `searchParams.get("tab") || "dashboard"`: a missing or empty value
      means the dashboard. */
  function CurrentTab(tab: Option<string>): (t: string)
    ensures t != ""
    ensures tab.Some? && tab.value != "" ==> t == tab.value
    ensures tab.None? || tab.value == "" ==> t == "dashboard"
  {
    match tab
    case None => "dashboard"
    case Some(v) => if v == "" then "dashboard" else v
  }

  datatype Header = Header(title: string, sub: string)

  const KNOWN_TABS: set<string> := {"dashboard", "my-courses", "achievements", "path", "profile"}

  /** `tabInfo`: the own entries of the header table, one per known tab. */
  function TabInfo(tab: string): (h: Option<Header>)
    ensures h.Some? <==> tab in KNOWN_TABS
  {
    if tab == "dashboard" then
      Some(Header("My Learning Dashboard", "Track your progress and continue where you left off"))
    else if tab == "my-courses" then
      Some(Header("My Enrolled Courses", "View and manage all your active and completed courses"))
    else if tab == "achievements" then
      Some(Header("Your Achievements", "Celebrated milestones and earned certificates"))
    else if tab == "path" then
      Some(Header("Learning Path", "Your personalized roadmap to AI mastery"))
    else if tab == "profile" then
      Some(Header("Profile Settings", "Manage your account and preferences"))
    else None
  }

  /** The names every object literal inherits from `Object.prototype`.
      Indexing `tabInfo` with one of them yields a function (or, for
      `__proto__`, the prototype object): truthy, with no `title` or `sub`. */
  const OBJECT_PROTOTYPE_KEYS: set<string> := {
    "constructor", "hasOwnProperty", "isPrototypeOf", "propertyIsEnumerable",
    "toString", "toLocaleString", "valueOf", "__proto__",
    "__defineGetter__", "__defineSetter__", "__lookupGetter__", "__lookupSetter__"
  }

  /** No inherited name is a known tab. */
  lemma PrototypeKeysAreNotTabs(tab: string)
    ensures tab in OBJECT_PROTOTYPE_KEYS ==> tab !in KNOWN_TABS
  {
  }

  /** What the property access `tabInfo[tab]` finds. */
  datatype Found = OwnEntry(header: Header) | Inherited | Missing

  function LookupTabInfo(tab: string): (f: Found)
    ensures f.OwnEntry? <==> tab in KNOWN_TABS
    ensures f.Inherited? <==> tab in OBJECT_PROTOTYPE_KEYS
    ensures f.OwnEntry? ==> TabInfo(tab) == Some(f.header)
  {
    PrototypeKeysAreNotTabs(tab);
    match TabInfo(tab)
    case Some(h) => OwnEntry(h)
    case None => if tab in OBJECT_PROTOTYPE_KEYS then Inherited else Missing
  }

  /** The destructured `{ title, sub }`; None stands for `undefined`. */
  datatype ShownHeader = ShownHeader(title: Option<string>, sub: Option<string>)

  function Shown(h: Header): ShownHeader
  {
    ShownHeader(Some(h.title), Some(h.sub))
  }

  /** `tabInfo[currentTab] || tabInfo.dashboard`, as written: a known tab
      gets its own header, an inherited name is truthy and leaves title and
      sub undefined, and only the remaining tabs fall back to the dashboard
      header. */
  function HeaderFor(tab: string): (h: ShownHeader)
    ensures tab in KNOWN_TABS ==> h == Shown(TabInfo(tab).value)
    ensures tab in OBJECT_PROTOTYPE_KEYS ==> h.title.None? && h.sub.None?
    ensures tab !in KNOWN_TABS && tab !in OBJECT_PROTOTYPE_KEYS ==> h == Shown(TabInfo("dashboard").value)
  {
    match LookupTabInfo(tab)
    case OwnEntry(h) => Shown(h)
    case Inherited => ShownHeader(None, None)
    case Missing => Shown(TabInfo("dashboard").value)
  }

  /** The lookup over own entries only (as `Object.hasOwn` or a `Map` would
      give): every tab outside the table gets the dashboard header. */
  function OwnHeaderFor(tab: string): (h: Header)
    ensures tab in KNOWN_TABS ==> Some(h) == TabInfo(tab)
    ensures tab !in KNOWN_TABS ==> Some(h) == TabInfo("dashboard")
  {
    match TabInfo(tab)
    case Some(h) => h
    case None => TabInfo("dashboard").value
  }

  /** Away from the inherited names the written lookup and the own-entry
      lookup agree. */
  lemma HeaderForAgreesOffPrototype(tab: string)
    requires tab !in OBJECT_PROTOTYPE_KEYS
    ensures HeaderFor(tab) == Shown(OwnHeaderFor(tab))
  {
  }

  /** The heading of the "coming soon" panel, `{title} is coming soon`;
      React renders an undefined title as nothing. */
  function ComingSoonHeading(h: ShownHeader): (s: string)
    ensures |s| >= |COMING_SOON| && s[|s| - |COMING_SOON|..] == COMING_SOON
    ensures h.title.Some? ==> IsPrefix(h.title.value, s)
    ensures h.title.None? ==> s == COMING_SOON
  {
    (match h.title case Some(t) => t case None => "") + COMING_SOON
  }

  const COMING_SOON: string := " is coming soon"

  /** `/dashboard?tab=constructor` shows the "coming soon" panel with an
      empty header and the heading " is coming soon", where the own-entry
      lookup gives the dashboard header. */
  lemma ConstructorTabLosesHeader()
    ensures CurrentTab(Some("constructor")) == "constructor"
    ensures !ShowsCourseGrid("constructor")
    ensures HeaderFor("constructor") == ShownHeader(None, None)
    ensures ComingSoonHeading(HeaderFor("constructor")) == " is coming soon"
    ensures OwnHeaderFor("constructor").title == "My Learning Dashboard"
  {
  }

  /** Distinct known tabs get distinct headers, so only unknown tabs share
      the dashboard's. */
  lemma HeadersDistinct(t1: string, t2: string)
    requires t1 in KNOWN_TABS && t2 in KNOWN_TABS && t1 != t2
    ensures HeaderFor(t1) != HeaderFor(t2)
    ensures OwnHeaderFor(t1) != OwnHeaderFor(t2)
  {
  }

  /** The statistics, search and course grid appear on the dashboard and
      my-courses tabs; every other tab shows the "coming soon" panel. */
  predicate ShowsCourseGrid(tab: string)
    ensures ShowsCourseGrid(tab) ==> tab in KNOWN_TABS && HeaderFor(tab).title.Some?
  {
    tab == "dashboard" || tab == "my-courses"
  }

  /** With no tab the course grid and the dashboard header are shown. */
  lemma AbsentTabIsDashboard(tab: Option<string>)
    requires tab.None? || tab == Some("")
    ensures ShowsCourseGrid(CurrentTab(tab))
    ensures HeaderFor(CurrentTab(tab)).title == Some("My Learning Dashboard")
  {
  }
}

=== FILE: login.dfy ===
/** The login form's validation in app/page.tsx: the email shape check and
    the per-field error messages that gate submission. */
module Login {
  import opened Wrappers
  import opened Strings
  import opened Seqs

  // ------------------------------------------------------------ email shape

  /** A run of the regular-expression class `[^\s@]`. */
  predicate Plain(s: string)
  {
    forall i :: 0 <= i < |s| ==> !IsSpace(s[i]) && s[i] != '@'
  }

  /** `s` splits as X "@" Y "." Z at indices `at` and `dot`, with X, Y and Z
      non-empty runs of `[^\s@]`. */
  predicate SplitsAt(s: string, at: int, dot: int)
  {
    && 0 < at && at + 1 < dot && dot + 1 < |s|
    && s[at] == '@' && s[dot] == '.'
    && Plain(s[..at]) && Plain(s[at + 1..dot]) && Plain(s[dot + 1..])
  }

  /** The language of `/^[^\s@]+@[^\s@]+\.[^\s@]+$/`. */
  ghost predicate MatchesEmailPattern(s: string)
    ensures MatchesEmailPattern(s) ==> |s| >= 5 && s[0] != '@' && '@' in s
  {
    exists at, dot :: SplitsAt(s, at, dot)
  }

  /** The character `validateEmail`'s pattern splits at. */
  predicate IsAt(c: char)
  {
    c == '@'
  }

  /** A '.' strictly inside `d`: some text on each side of it. */
  predicate HasInnerDot(d: string)
  {
    exists k | 1 <= k < |d| - 1 :: d[k] == '.'
  }

  /** `validateEmail`, decided by one look for the '@': a non-empty local
      part before it, and after it a run of `[^\s@]` with an inner dot. */
  predicate ValidateEmail(email: string)
    ensures ValidateEmail(email) ==> |email| >= 5 && email[0] != '@'
    ensures ValidateEmail(email) ==> forall i :: 0 <= i < |email| ==> !IsSpace(email[i])
  {
    var at := FirstIndex(email, IsAt);
    && at > 0
    && Plain(email[..at])
    && Plain(email[at + 1..])
    && HasInnerDot(email[at + 1..])
  }

  lemma PlainSlice(s: string, i: int, j: int)
    requires Plain(s) && 0 <= i <= j <= |s|
    ensures Plain(s[i..j])
  {
  }

  /** `validateEmail` accepts exactly the strings the regular expression
      matches. */
  lemma ValidateEmailMatchesPattern(email: string)
    ensures ValidateEmail(email) <==> MatchesEmailPattern(email)
  {
    var at := FirstIndex(email, IsAt);
    if ValidateEmail(email) {
      var d := email[at + 1..];
      var k :| 1 <= k < |d| - 1 && d[k] == '.';
      var dot := at + 1 + k;
      assert email[at + 1..dot] == d[..k];
      assert email[dot + 1..] == d[k + 1..];
      PlainSlice(d, 0, k);
      PlainSlice(d, k + 1, |d|);
      assert SplitsAt(email, at, dot);
    }
    if MatchesEmailPattern(email) {
      var a, dot :| SplitsAt(email, a, dot);
      assert forall j :: 0 <= j < a ==> email[j] == email[..a][j];
      assert at == a;
      var d := email[a + 1..];
      assert d[dot - a - 1] == '.';
      forall i | 0 <= i < |d|
        ensures !IsSpace(d[i]) && d[i] != '@'
      {
        if i < dot - a - 1 {
          assert d[i] == email[a + 1..dot][i];
        } else if i > dot - a - 1 {
          assert d[i] == email[dot + 1..][i - (dot - a)];
        }
      }
    }
  }

  /** A valid address has exactly one '@' and no whitespace at all. */
  lemma ValidEmailShape(email: string)
    requires ValidateEmail(email)
    ensures forall i :: 0 <= i < |email| ==> !IsSpace(email[i])
    ensures forall i, j :: 0 <= i < |email| && 0 <= j < |email| && email[i] == '@' && email[j] == '@' ==> i == j
    ensures |email| >= 5
    ensures '@' in email
  {
  }

  /** Sample inputs of the pattern. */
  lemma EmailExamples()
    ensures ValidateEmail("a@b.c")
    ensures !ValidateEmail("a@b")
    ensures !ValidateEmail("@b.c")
    ensures !ValidateEmail("a@b.")
    ensures !ValidateEmail("a@.c")
    ensures !ValidateEmail("a b@c.d")
    ensures !ValidateEmail("a@b@c.d")
  {
    var ok := "a@b.c";
    assert FirstIndex(ok, IsAt) == 1;
    assert ok[2..][1] == '.';
    var sp := "a b@c.d";
    assert FirstIndex(sp, IsAt) == 3;
    assert sp[..3][1] == ' ';
    var two := "a@b@c.d";
    assert FirstIndex(two, IsAt) == 1;
    assert two[2..][1] == '@';
  }

  // --------------------------------------------------------- password length

  /** JavaScript's `length`: UTF-16 code units, two for a character outside
      the Basic Multilingual Plane. */
  function Utf16Length(s: string): (n: nat)
    ensures |s| <= n <= 2 * |s|
    decreases |s|
  {
    if |s| == 0 then 0
    else (if s[0] as int >= 0x1_0000 then 2 else 1) + Utf16Length(s[1..])
  }

  lemma {:induction false} Utf16LengthBmp(s: string)
    requires forall i :: 0 <= i < |s| ==> (s[i] as int) < 0x1_0000
    ensures Utf16Length(s) == |s|
    decreases |s|
  {
    if |s| > 0 {
      Utf16LengthBmp(s[1..]);
    }
  }

  const MIN_PASSWORD_LENGTH: nat := 6

  // ------------------------------------------------------------------ errors

  datatype EmailError = EmailRequired | EmailInvalid
  {
    function Message(): string
    {
      match this
      case EmailRequired => "Email is required"
      case EmailInvalid => "Enter a valid email address"
    }
  }

  datatype PasswordError = PasswordRequired | PasswordTooShort
  {
    function Message(): string
    {
      match this
      case PasswordRequired => "Password is required"
      case PasswordTooShort => "Minimum 6 characters"
    }
  }

  datatype Form = Form(email: string, password: string)

  /** `FormErrors`: each field carries at most one message. */
  datatype FormErrors = FormErrors(email: Option<EmailError>, password: Option<PasswordError>)
  {
    /** `Object.keys(errs).length === 0`. */
    predicate IsEmpty()
    {
      email.None? && password.None?
    }
  }

  /** The email half of `validate`: "required" for an empty field, which
      therefore never reads as malformed. */
  function EmailErrorOf(email: string): (e: Option<EmailError>)
    ensures e == Some(EmailRequired) <==> email == ""
  {
    if email == "" then Some(EmailRequired)
    else if !ValidateEmail(email) then Some(EmailInvalid)
    else None
  }

  /** The email error in terms of the regular expression: none exactly for a
      matching address, "invalid" for every other non-empty one. */
  lemma EmailErrorIff(email: string)
    ensures EmailErrorOf(email).None? <==> MatchesEmailPattern(email)
    ensures EmailErrorOf(email) == Some(EmailInvalid) <==> email != "" && !MatchesEmailPattern(email)
  {
    if email == "" {
      assert !MatchesEmailPattern(email);
    } else {
      ValidateEmailMatchesPattern(email);
    }
  }

  function PasswordErrorOf(password: string): (e: Option<PasswordError>)
    ensures e == Some(PasswordRequired) <==> password == ""
    ensures e == Some(PasswordTooShort) <==> password != "" && Utf16Length(password) < MIN_PASSWORD_LENGTH
    ensures e.None? <==> Utf16Length(password) >= MIN_PASSWORD_LENGTH
  {
    if password == "" then Some(PasswordRequired)
    else if Utf16Length(password) < MIN_PASSWORD_LENGTH then Some(PasswordTooShort)
    else None
  }

  /** `validate`: the email error depends only on the email, the password
      error only on the password. */
  function Validate(form: Form): (errs: FormErrors)
    ensures errs.email == Some(EmailRequired) <==> form.email == ""
    ensures errs.email == Some(EmailInvalid) <==> form.email != "" && !MatchesEmailPattern(form.email)
    ensures errs.email.None? <==> MatchesEmailPattern(form.email)
    ensures errs.password == Some(PasswordRequired) <==> form.password == ""
    ensures errs.password == Some(PasswordTooShort) <==>
              form.password != "" && Utf16Length(form.password) < MIN_PASSWORD_LENGTH
    ensures errs.password.None? <==> Utf16Length(form.password) >= MIN_PASSWORD_LENGTH
    ensures errs.IsEmpty() <==>
              MatchesEmailPattern(form.email) && Utf16Length(form.password) >= MIN_PASSWORD_LENGTH
  {
    EmailErrorIff(form.email);
    FormErrors(EmailErrorOf(form.email), PasswordErrorOf(form.password))
  }

  /** Changing one field leaves the other field's error as it was. */
  lemma FieldsIndependent(f: Form, email: string, password: string)
    ensures Validate(f.(email := email)).password == Validate(f).password
    ensures Validate(f.(password := password)).email == Validate(f).email
  {
  }

  /** `handleSubmit` goes on to sign in exactly when there is no error: the
      address matches the pattern and the password has at least six code
      units. */
  predicate CanSubmit(form: Form)
    ensures CanSubmit(form) <==>
              MatchesEmailPattern(form.email) && Utf16Length(form.password) >= MIN_PASSWORD_LENGTH
  {
    Validate(form).IsEmpty()
  }

  /** An empty email is reported as required, never as malformed, and the
      same precedence holds for the password. */
  lemma RequiredTakesPrecedence(form: Form)
    requires form.email == "" && form.password == ""
    ensures Validate(form) == FormErrors(Some(EmailRequired), Some(PasswordRequired))
  {
  }
}

=== FILE: progress_bar.dfy ===
/** The fill colour of components/ui/ProgressBar.tsx. */
module ProgressBar {

  datatype ColorClass = Low | Medium | High
  {
    function Rank(): nat
    {
      match this
      case Low => 0
      case Medium => 1
      case High => 2
    }
  }

  /** `colorClass`: high from 80, medium from 40, low below. */
  function ColorOf(value: int): (c: ColorClass)
    ensures c == High <==> value >= 80
    ensures c == Medium <==> 40 <= value < 80
    ensures c == Low <==> value < 40
  {
    if value >= 80 then High
    else if value >= 40 then Medium
    else Low
  }

  /** A larger value never selects a lower colour class. */
  lemma Monotone(v: int, w: int)
    requires v <= w
    ensures ColorOf(v).Rank() <= ColorOf(w).Rank()
  {
  }
}

=== FILE: seqs.dfy ===
/** Generic sequence searches shared by the catalog lookup and the email check. */
module Seqs {

  /** Index of the first element satisfying `p`, or -1 when none does: the
      search behind both `Array.prototype.find` and `String.prototype.indexOf`. */
  function FirstIndex<T>(s: seq<T>, p: T -> bool): (k: int)
    ensures -1 <= k < |s|
    ensures k >= 0 ==> p(s[k])
    ensures forall j :: 0 <= j < |s| && (k == -1 || j < k) ==> !p(s[j])
    decreases |s|
  {
    if |s| == 0 then -1
    else if p(s[0]) then 0
    else
      var k := FirstIndex(s[1..], p);
      if k == -1 then -1 else k + 1
  }
}

=== FILE: sidebar.dfy ===
/** Which navigation entry of components/layout/Sidebar.tsx is highlighted,
    given the current path and the `tab` query parameter. */
module Sidebar {
  import opened Wrappers
  import opened Strings

  datatype Section = Main | Account

  datatype NavItem = NavItem(title: string, href: string)

  const DASHBOARD: string := "/dashboard"
  const TAB_QUERY: string := "/dashboard?tab="

  const NAV_ITEMS: seq<NavItem> := [
    NavItem("Dashboard", "/dashboard"),
    NavItem("My Courses", TAB_QUERY + "my-courses"),
    NavItem("Achievements", TAB_QUERY + "achievements"),
    NavItem("Learning Path", TAB_QUERY + "path"),
    NavItem("Profile", TAB_QUERY + "profile")
  ]

  /** The tab values the entries link to. */
  const LINKED_TABS: set<string> := {"my-courses", "achievements", "path", "profile"}

  /** `NAV_ITEMS.slice(0, 4)` render under "Main", `slice(4)` under "Account". */
  function SectionOf(i: nat): (s: Section)
    requires i < |NAV_ITEMS|
    ensures s == Account <==> NAV_ITEMS[i].title == "Profile"
  {
    if i < 4 then Main else Account
  }

  /** The template literal `${currentTab}`: a missing parameter reads "null". */
  function TabText(tab: Option<string>): (t: string)
    ensures tab.Some? ==> t == tab.value
    ensures t == "" <==> tab == Some("")
  {
    match tab
    case None => "null"
    case Some(v) => v
  }

  /** `!currentTab`: missing or empty. */
  predicate NoTab(tab: Option<string>)
    ensures NoTab(tab) ==> TabText(tab) in {"", "null"}
  {
    tab.None? || tab.value == ""
  }

  /** `isActive`. In the "Main" section the entry whose href is the bare
      dashboard is active when there is no tab; every other entry is active
      when its href contains `tab=` followed by the tab text. Nothing is
      active away from the dashboard path. */
  predicate IsActive(i: nat, pathname: string, tab: Option<string>)
    requires i < |NAV_ITEMS|
    ensures IsActive(i, pathname, tab) ==> pathname == DASHBOARD
  {
    var href := NAV_ITEMS[i].href;
    if SectionOf(i) == Main && href == DASHBOARD then
      pathname == DASHBOARD && NoTab(tab)
    else
      pathname == DASHBOARD && Contains(href, "tab=" + TabText(tab))
  }

  /** A tab link contains `tab=w` exactly when `w` is a prefix of its own
      tab value: the only '=' in the link pins down where the match starts. */
  lemma {:induction false} TabLinkContains(v: string, w: string)
    requires '=' !in v
    ensures Contains(TAB_QUERY + v, "tab=" + w) <==> IsPrefix(w, v)
  {
    var h := TAB_QUERY + v;
    var n := "tab=" + w;
    if Contains(h, n) {
      var i :| 0 <= i <= |h| - |n| && OccursAt(h, n, i);
      assert n[3] == '=';
      assert h[i + 3] == h[i..i + |n|][3];
      assert i == 11;
      forall k | 0 <= k < |w|
        ensures v[k] == w[k]
      {
        assert h[i..i + |n|][4 + k] == n[4 + k];
      }
    }
    if IsPrefix(w, v) {
      assert h[11..11 + |n|] == n;
      assert OccursAt(h, n, 11);
    }
  }

  /** The bare dashboard link contains no `tab=` at all. */
  lemma DashboardLinkHasNoTab(w: string)
    ensures !Contains(DASHBOARD, "tab=" + w)
  {
    if Contains(DASHBOARD, "tab=" + w) {
      ContainsChar(DASHBOARD, "tab=" + w, 3);
    }
  }

  /** The tab value entry `i` links to. */
  function TabValueOf(i: nat): (v: string)
    requires 1 <= i < |NAV_ITEMS|
    ensures NAV_ITEMS[i].href == TAB_QUERY + v
    ensures v in LINKED_TABS && '=' !in v
  {
    if i == 1 then "my-courses"
    else if i == 2 then "achievements"
    else if i == 3 then "path"
    else "profile"
  }

  /** No linked tab value is a prefix of another, and none starts with
      "null". */
  lemma LinkedTabsPrefixFree(v: string, t: string)
    requires v in LINKED_TABS && t in LINKED_TABS
    ensures IsPrefix(v, t) <==> v == t
    ensures !IsPrefix("null", t)
  {
    if IsPrefix(v, t) {
      assert v[0] == t[..|v|][0] && v[1] == t[..|v|][1];
    }
    assert t[0] != 'n';
  }

  /** Away from the dashboard path nothing is highlighted. */
  lemma NothingActiveElsewhere(pathname: string, tab: Option<string>)
    requires pathname != DASHBOARD
    ensures forall i :: 0 <= i < |NAV_ITEMS| ==> !IsActive(i, pathname, tab)
  {
  }

  /** The Dashboard entry is active exactly on the dashboard path with no
      tab, or an empty one. */
  lemma DashboardEntryActiveIff(pathname: string, tab: Option<string>)
    ensures IsActive(0, pathname, tab) <==> pathname == DASHBOARD && NoTab(tab)
  {
  }

  /** A tab entry is active exactly when its own tab value starts with the
      tab text. */
  lemma TabEntryActiveIff(i: nat, pathname: string, tab: Option<string>)
    requires 1 <= i < |NAV_ITEMS|
    ensures IsActive(i, pathname, tab) <==>
              pathname == DASHBOARD && IsPrefix(TabText(tab), TabValueOf(i))
  {
    var v := TabValueOf(i);
    assert NAV_ITEMS[i].href != DASHBOARD by {
      assert |NAV_ITEMS[i].href| > |DASHBOARD|;
    }
    TabLinkContains(v, TabText(tab));
  }

  /** With no `tab` parameter only the Dashboard entry is active: "null"
      starts none of the tab values. */
  lemma NoTabOnlyDashboard()
    ensures IsActive(0, DASHBOARD, None)
    ensures forall i :: 1 <= i < |NAV_ITEMS| ==> !IsActive(i, DASHBOARD, None)
  {
    forall i | 1 <= i < |NAV_ITEMS|
      ensures !IsActive(i, DASHBOARD, None)
    {
      TabEntryActiveIff(i, DASHBOARD, None);
      LinkedTabsPrefixFree("path", TabValueOf(i));
    }
  }

  /** On the dashboard path each linked tab value highlights exactly the
      entry that links to it. */
  lemma LinkedTabActivatesOnlyItsEntry(v: string)
    requires v in LINKED_TABS
    ensures forall i :: 0 <= i < |NAV_ITEMS| ==>
              (IsActive(i, DASHBOARD, Some(v)) <==> NAV_ITEMS[i].href == TAB_QUERY + v)
  {
    forall i | 0 <= i < |NAV_ITEMS|
      ensures IsActive(i, DASHBOARD, Some(v)) <==> NAV_ITEMS[i].href == TAB_QUERY + v
    {
      if i == 0 {
        assert |NAV_ITEMS[0].href| < |TAB_QUERY + v|;
      } else {
        var t := TabValueOf(i);
        TabEntryActiveIff(i, DASHBOARD, Some(v));
        LinkedTabsPrefixFree(v, t);
        assert (TAB_QUERY + t)[|TAB_QUERY|..] == t;
        assert (TAB_QUERY + v)[|TAB_QUERY|..] == v;
      }
    }
  }

  /** An empty `tab=` highlights every entry at once: it is falsy for the
      Dashboard entry and `tab=` is in every other link. */
  lemma EmptyTabActivatesAll()
    ensures forall i :: 0 <= i < |NAV_ITEMS| ==> IsActive(i, DASHBOARD, Some(""))
  {
    forall i | 1 <= i < |NAV_ITEMS|
      ensures IsActive(i, DASHBOARD, Some(""))
    {
      TabEntryActiveIff(i, DASHBOARD, Some(""));
    }
  }

  /** A tab text that starts two tab values highlights both entries. */
  lemma PrefixTabActivatesSeveral()
    ensures IsActive(3, DASHBOARD, Some("p")) && IsActive(4, DASHBOARD, Some("p"))
  {
    TabEntryActiveIff(3, DASHBOARD, Some("p"));
    TabEntryActiveIff(4, DASHBOARD, Some("p"));
  }
}

=== FILE: strings.dfy ===
/** String primitives of the JavaScript runtime that the dashboard relies on:
    the whitespace class shared by `\s` and `String.prototype.trim`,
    `toLowerCase` (ASCII part only), `includes` and `trim`. Characters are
    Unicode scalar values. */
module Strings {

  /** JavaScript WhiteSpace or LineTerminator: the characters matched by the
      regular-expression class `\s` and removed by `trim()`. */
  predicate IsSpace(c: char)
    ensures (c as int) < 0x80 ==> (IsSpace(c) <==> c == ' ' || '\t' <= c <= '\r')
    ensures IsSpace(c) ==> (c as int) < 0x1_0000
  {
    || c == '\t' || c == '\n' || c == '\U{B}' || c == '\U{C}' || c == '\r'
    || c == ' ' || c == '\U{A0}' || c == '\U{1680}'
    || ('\U{2000}' <= c <= '\U{200A}')
    || c == '\U{2028}' || c == '\U{2029}' || c == '\U{202F}' || c == '\U{205F}'
    || c == '\U{3000}' || c == '\U{FEFF}'
  }

  predicate AllSpace(s: string)
  {
    forall i :: 0 <= i < |s| ==> IsSpace(s[i])
  }

  // ---------------------------------------------------------------- includes

  /** `needle` occurs in `hay` starting at index `i`. */
  predicate OccursAt(hay: string, needle: string, i: int)
  {
    0 <= i && i + |needle| <= |hay| && hay[i..i + |needle|] == needle
  }

  /** `hay.includes(needle)`: some position of `hay` starts a copy of `needle`. */
  predicate Contains(hay: string, needle: string)
  {
    exists i | 0 <= i <= |hay| - |needle| :: OccursAt(hay, needle, i)
  }

  predicate IsPrefix(p: string, s: string)
  {
    |p| <= |s| && s[..|p|] == p
  }

  /** The left-to-right scan behind `includes`: tries every start position in
      turn and compares character by character. */
  method Includes(hay: string, needle: string) returns (found: bool)
    ensures found <==> Contains(hay, needle)
  {
    var i := 0;
    while i + |needle| <= |hay|
      invariant 0 <= i
      invariant i + |needle| <= |hay| + 1 || i == 0
      invariant forall j :: 0 <= j < i ==> !OccursAt(hay, needle, j)
      decreases |hay| - i
    {
      var k := 0;
      while k < |needle| && hay[i + k] == needle[k]
        invariant 0 <= k <= |needle|
        invariant hay[i..i + k] == needle[..k]
      {
        assert hay[i..i + k + 1] == hay[i..i + k] + [hay[i + k]];
        assert needle[..k + 1] == needle[..k] + [needle[k]];
        k := k + 1;
      }
      if k == |needle| {
        assert OccursAt(hay, needle, i);
        return true;
      }
      assert hay[i..i + |needle|][k] != needle[k];
      i := i + 1;
    }
    return false;
  }

  /** Every string contains the empty string. */
  lemma ContainsEmpty(hay: string)
    ensures Contains(hay, "")
  {
    assert OccursAt(hay, "", 0);
  }

  /** A character of the needle is a character of the haystack. */
  lemma ContainsChar(hay: string, needle: string, k: int)
    requires Contains(hay, needle)
    requires 0 <= k < |needle|
    ensures needle[k] in hay
  {
  }

  // ------------------------------------------------------------- toLowerCase

  /** `toLowerCase` on one character, restricted to ASCII letters. */
  function LowerChar(c: char): (r: char)
    ensures IsSpace(r) <==> IsSpace(c)
    ensures 'A' <= c <= 'Z' ==> r as int == c as int + 32
    ensures !('A' <= c <= 'Z') ==> r == c
  {
    if 'A' <= c <= 'Z' then (c as int + 32) as char else c
  }

  /** `toLowerCase` on a string: character by character, length preserved. */
  function Lower(s: string): (r: string)
    ensures |r| == |s|
    ensures forall i :: 0 <= i < |s| ==> r[i] == LowerChar(s[i])
    ensures NoCapitals(r)
  {
    seq(|s|, i requires 0 <= i < |s| => LowerChar(s[i]))
  }

  /** No ASCII capital letter occurs. */
  predicate NoCapitals(s: string)
  {
    forall i :: 0 <= i < |s| ==> !('A' <= s[i] <= 'Z')
  }

  /** Lower-casing twice is lower-casing once. */
  lemma LowerIdempotent(s: string)
    ensures Lower(Lower(s)) == Lower(s)
  {
  }

  /** Lower-casing keeps exactly the whitespace it was given. */
  lemma LowerKeepsSpace(s: string)
    ensures AllSpace(Lower(s)) <==> AllSpace(s)
  {
  }

  // -------------------------------------------------------------------- trim

  /** Drops leading whitespace: the result is a suffix of `s`, everything
      dropped is whitespace, and the result does not start with whitespace. */
  function TrimStart(s: string): (r: string)
    ensures |r| <= |s| && r == s[|s| - |r|..]
    ensures AllSpace(s[..|s| - |r|])
    ensures r == [] || !IsSpace(r[0])
    decreases |s|
  {
    if |s| > 0 && IsSpace(s[0]) then
      var r := TrimStart(s[1..]);
      assert s[..|s| - |r|] == [s[0]] + s[1..][..|s[1..]| - |r|];
      r
    else s
  }

  /** Drops trailing whitespace: the result is a prefix of `s`, everything
      dropped is whitespace, and the result does not end with whitespace. */
  function TrimEnd(s: string): (r: string)
    ensures |r| <= |s| && r == s[..|r|]
    ensures AllSpace(s[|r|..])
    ensures r == [] || !IsSpace(r[|r| - 1])
    decreases |s|
  {
    if |s| > 0 && IsSpace(s[|s| - 1]) then
      var r := TrimEnd(s[..|s| - 1]);
      assert s[|r|..] == s[..|s| - 1][|r|..] + [s[|s| - 1]];
      r
    else s
  }

  /** `String.prototype.trim`: a piece of the input that neither starts nor
      ends with whitespace. */
  function Trim(s: string): (r: string)
    ensures |r| <= |s|
    ensures r == [] || (!IsSpace(r[0]) && !IsSpace(r[|r| - 1]))
  {
    var a := TrimStart(s);
    var r := TrimEnd(a);
    assert r != [] ==> r[0] == a[0];
    r
  }

  /** Trimming only removes characters, so it adds no capital letter. */
  lemma TrimKeepsNoCapitals(s: string)
    requires NoCapitals(s)
    ensures NoCapitals(Trim(s))
  {
    var a := TrimStart(s);
    var k := |s| - |a|;
    assert a == s[k..];
    assert NoCapitals(a) by {
      forall i | 0 <= i < |a|
        ensures !('A' <= a[i] <= 'Z')
      {
        assert a[i] == s[k + i];
      }
    }
    var r := TrimEnd(a);
    assert r == a[..|r|];
  }

  /** `trim()` leaves nothing exactly when the string is all whitespace. */
  lemma TrimEmptyIff(s: string)
    ensures Trim(s) == [] <==> AllSpace(s)
  {
  }

  /** The trimmed string is a contiguous piece of the input, surrounded only
      by whitespace, that neither starts nor ends with whitespace. */
  lemma TrimSpec(s: string)
    ensures exists i, j :: 0 <= i <= j <= |s| && Trim(s) == s[i..j]
                          && AllSpace(s[..i]) && AllSpace(s[j..])
    ensures Trim(s) == [] || (!IsSpace(Trim(s)[0]) && !IsSpace(Trim(s)[|Trim(s)| - 1]))
  {
    var a := TrimStart(s);
    var r := TrimEnd(a);
    var i := |s| - |a|;
    var j := i + |r|;
    assert Trim(s) == r;
    assert r == s[i..j];
    assert s[j..] == a[|r|..];
    assert AllSpace(s[..i]) && AllSpace(s[j..]);
  }
}

=== FILE: theme.dfy ===
/** The light/dark theme of context/ThemeContext.tsx: the value the provider
    starts with, how it is resolved from browser storage and the system
    preference, and the toggle that flips and persists it. Browser storage
    is a map from keys to strings; the system preference is an input. */
module Theme {
  import opened Wrappers

  const STORAGE_KEY: string := "ai-dashboard-theme"
  const LIGHT: string := "light"
  const DARK: string := "dark"

  /** `localStorage`. */
  type Storage = map<string, string>

  /** A theme is held as the string it is stored as: a stored value is taken
      as it is, so the provider can hold strings other than the two themes. */
  datatype ThemeState = ThemeState(theme: string, mounted: bool, storage: Storage)
  {
    /** The provider renders its children only once mounted. */
    predicate RendersChildren()
    {
      mounted
    }
  }

  /** The provider before its mount effect runs. */
  function Initial(storage: Storage): (s: ThemeState)
    ensures s.theme == LIGHT && !s.RendersChildren() && s.storage == storage
  {
    ThemeState(LIGHT, false, storage)
  }

  /** `localStorage.getItem(key)`: the stored value, or null for a missing key. */
  function Lookup(storage: Storage, key: string): (r: Option<string>)
    ensures r.Some? <==> key in storage
    ensures r.Some? ==> r.value == storage[key]
  {
    if key in storage then Some(storage[key]) else None
  }

  /** `stored ?? (prefersDark ? "dark" : "light")`: a stored value wins,
      even an empty one; only a missing key falls back to the preference. */
  function Resolve(stored: Option<string>, prefersDark: bool): (t: string)
    ensures stored.Some? ==> t == stored.value
    ensures stored.None? ==> (t == DARK <==> prefersDark)
    ensures stored.None? ==> t in {LIGHT, DARK}
  {
    match stored
    case Some(v) => v
    case None => if prefersDark then DARK else LIGHT
  }

  /** The mount effect: resolve the theme and start rendering. Storage is
      read, not written. */
  function Mount(s: ThemeState, prefersDark: bool): (s': ThemeState)
    ensures s'.RendersChildren()
    ensures s'.storage == s.storage
    ensures STORAGE_KEY in s.storage ==> s'.theme == s.storage[STORAGE_KEY]
    ensures STORAGE_KEY !in s.storage ==> (s'.theme == DARK <==> prefersDark)
    ensures STORAGE_KEY !in s.storage ==> s'.theme in {LIGHT, DARK}
  {
    ThemeState(Resolve(Lookup(s.storage, STORAGE_KEY), prefersDark), true, s.storage)
  }

  /** `prev === "light" ? "dark" : "light"`. */
  function Flip(prev: string): (next: string)
    ensures next in {LIGHT, DARK}
    ensures next == DARK <==> prev == LIGHT
  {
    if prev == LIGHT then DARK else LIGHT
  }

  /** `toggleTheme`: flip the theme and store the new value. */
  function Toggle(s: ThemeState): (s': ThemeState)
    ensures s'.theme in {LIGHT, DARK}
    ensures s'.theme != s.theme || s.theme !in {LIGHT, DARK}
    ensures STORAGE_KEY in s'.storage && s'.storage[STORAGE_KEY] == s'.theme
    ensures forall k :: k != STORAGE_KEY ==> Lookup(s'.storage, k) == Lookup(s.storage, k)
    ensures s'.mounted == s.mounted
  {
    var next := Flip(s.theme);
    ThemeState(next, s.mounted, s.storage[STORAGE_KEY := next])
  }

  /** On the two real themes, toggling twice restores the theme. */
  lemma ToggleTwice(s: ThemeState)
    requires s.theme in {LIGHT, DARK}
    ensures Toggle(Toggle(s)).theme == s.theme
  {
  }

  /** Any other held value is toggled to "light". */
  lemma ToggleOther(s: ThemeState)
    requires s.theme != LIGHT
    ensures Toggle(s).theme == LIGHT
  {
  }

  /** What a toggle stores is what the next page load resolves to, whatever
      the system preference then is. */
  lemma ToggleSurvivesReload(s: ThemeState, prefersDark: bool)
    ensures Mount(Initial(Toggle(s).storage), prefersDark).theme == Toggle(s).theme
  {
  }

  /** A run of mount followed by toggles: after at least one toggle the
      stored value always equals the displayed theme. */
  function Run(storage: Storage, prefersDark: bool, toggles: nat): (s: ThemeState)
    ensures s.RendersChildren() && (STORAGE_KEY in storage ==> STORAGE_KEY in s.storage)
    ensures toggles > 0 ==> STORAGE_KEY in s.storage && s.storage[STORAGE_KEY] == s.theme
    decreases toggles
  {
    if toggles == 0 then Mount(Initial(storage), prefersDark)
    else Toggle(Run(storage, prefersDark, toggles - 1))
  }

  /** Starting from a real theme, the theme after n toggles depends only on
      the parity of n. */
  lemma {:induction false} RunParity(storage: Storage, prefersDark: bool, toggles: nat)
    requires Run(storage, prefersDark, 0).theme in {LIGHT, DARK}
    ensures Run(storage, prefersDark, toggles).theme ==
              if toggles % 2 == 0 then Run(storage, prefersDark, 0).theme
              else Flip(Run(storage, prefersDark, 0).theme)
    decreases toggles
  {
    if toggles > 0 {
      RunParity(storage, prefersDark, toggles - 1);
    }
  }
}

=== FILE: wrappers.dfy ===
/** The optional value used for JavaScript's `undefined` / `null` results. */
module Wrappers {

  datatype Option<+T> = None | Some(value: T)
}
